=== FILE: README.md ===
# Browser crypto envelope, modelled in Dafny

This project models the encrypt-then-MAC envelope of the WalletConnect browser crypto helpers
(`packages/helpers/browser-crypto/src/index.ts`). The envelope protects JSON-RPC requests and
responses under one shared key.

`encrypt` rejects an absent key. It takes the caller's IV or draws a fresh 128-bit one, then
serialises the message as JSON text in UTF-8 and encrypts it with AES-CBC. Next it computes
HMAC-SHA-256, under the same key, over the ciphertext followed by the IV. It returns the
ciphertext, IV and tag as three unprefixed lower-case hex strings (`data`, `iv`, `hmac`).

`decrypt` also rejects an absent key. It recomputes the tag over ciphertext followed by IV and
compares it with the received one. Only when they match does it decrypt, decode and parse. A
tag mismatch and a parse failure both give `null`.

Modules:

- `Wrappers` (`wrappers.dfy`): `Option` and `Result`.
- `Hex` (`hex.dfy`): bytes, and the hex codec of section 8 of RFC 4648 as the envelope uses it.
  Output is lower case with no prefix. Decoding strips one leading `0x` and accepts both cases.
- `JsonCodec` (`json.dfy`): JSON values and the injected `Codec` (`JSON.stringify`,
  `JSON.parse`, UTF-8 encode and decode). Its only promise is the round trip in `LawfulCodec`,
  for every `ValidJson` value: one whose objects have distinct keys at every depth, as every
  JavaScript object does.
- `WebCrypto` (`webcrypto.dfy`): the `crypto.subtle` calls the helpers make. The primitives are
  an injected `Provider`:
  - AES-CBC (section 6.2 of NIST SP 800-38A);
  - HMAC-SHA-256 (RFC 2104 over FIPS 180-4);
  - the secure random generator.

  `LawfulProvider` is all that is assumed about them: CBC decryption inverts CBC encryption for a
  valid key and IV, a tag is 32 bytes, and the generator returns as many bytes as asked for. The
  module models the Web Cryptography API's own gating of these primitives:
  - raw AES keys must be 16, 24 or 32 bytes, and raw HMAC keys must not be empty (`DataError`);
  - a key works only for its own algorithm and usages (`InvalidAccessError`);
  - an AES-CBC IV must be 16 bytes (`OperationError`);
  - a requested AES key length outside `unsigned short` (0 to 65535) fails its `[EnforceRange]`
    conversion (`TypeError`);
  - any other generated AES key length than 128, 192 or 256 bits is refused (`OperationError`).

  Every primitive invoked is recorded as a `Call` in a `Traced` result. The trace is how the
  model states what ran and in which order, for example that the cipher never runs before the
  tag has matched.
- `BrowserCrypto` (`browser_crypto.dfy`): the functions of `index.ts`. It also holds reference
  definitions of what the envelope is: `WellFormed`, `Unsigned` (ciphertext then IV),
  `Authentic`, `Seal`.
- `EnvelopeProperties` (`envelope_properties.dfy`): the lemmas relating them.

Thrown exceptions are `Err` values of `WebCrypto.Error`. JavaScript's `null` result of `decrypt`
is the JSON value `Null`. Returning it for a failure is therefore indistinguishable from an
authenticated plaintext that is the JSON text `null`, as in the source.

Two consequences of JavaScript truthiness, which the model keeps:

- `!key` is true only for an absent key (`None`), because an `ArrayBuffer` is always truthy. So
  only an absent key gives the "Missing key" error. An empty key passes that test and fails at
  key import with `DataError`.
- Likewise `providedIv || generateKey(128)` uses any supplied IV, even an empty one. A
  wrong-length IV then fails inside AES-CBC with `OperationError`.

## Model

| member | source | states |
|---|---|---|
| BrowserCrypto.ImportRequestFor | packages/helpers/browser-crypto/src/index.ts:28-39 | "AES-CBC" (also the default type) selects AES parameters of length 256 with usages encrypt/decrypt; any other type selects HMAC over SHA-256 with usages sign/verify |
| BrowserCrypto.ImportKey | packages/helpers/browser-crypto/src/index.ts:28-43 | an imported key holds exactly the given bytes, is extractable, and carries the usages the type selected |
| EnvelopeProperties.ImportKeySeparatesCapabilities | packages/helpers/browser-crypto/src/index.ts:37-41 | an AES-CBC key imports iff it is 16, 24 or 32 bytes and can encrypt but never sign; a key of any other type imports iff non-empty and can sign but never encrypt or decrypt |
| BrowserCrypto.KeyLength | packages/helpers/browser-crypto/src/index.ts:46 | an absent or zero length means 256 bits; any other length is kept |
| BrowserCrypto.GenerateKey | packages/helpers/browser-crypto/src/index.ts:45-58 | key generation succeeds iff the effective length is 128, 192 or 256 bits; it then returns the generator's bytes after one random draw of length/8 bytes; otherwise it draws nothing and throws TypeError for a length outside 0..65535 and OperationError for any other |
| EnvelopeProperties.GenerateKeyLength | packages/helpers/browser-crypto/src/index.ts:45-58 | with a lawful generator a generated key has exactly the effective number of bits, and an absent length yields 32 bytes |
| EnvelopeProperties.GeneratedKeyEncrypts | packages/helpers/browser-crypto/src/index.ts:45-58 | with a lawful generator every key generateKey returns imports as an AES-CBC key and encrypt under it with a fresh IV succeeds; a failure is TypeError exactly when the effective length is outside 0..65535, otherwise OperationError |
| BrowserCrypto.CreateHmac | packages/helpers/browser-crypto/src/index.ts:60-72 | the tag is HMAC-SHA-256 of the data under the raw key after exactly one sign call; an empty key is refused with DataError before any call |
| EnvelopeProperties.VerifyHmacExact | packages/helpers/browser-crypto/src/index.ts:74-89 | comparing unprefixed hex tags returns true iff the decoded received tag equals the HMAC of decoded ciphertext followed by decoded IV; a mismatch is false, not an error; hex the model's strict decoder refuses throws before any MAC call |
| BrowserCrypto.AesCbcEncrypt | packages/helpers/browser-crypto/src/index.ts:91-107 | encryption succeeds iff the key is an AES length and the IV is 16 bytes, giving the cipher's output after one CbcEncrypt call; a bad key is DataError, a bad IV OperationError, and neither invokes the cipher |
| BrowserCrypto.AesCbcDecrypt | packages/helpers/browser-crypto/src/index.ts:109-125 | decryption succeeds iff key and IV lengths are valid and the inverse cipher accepts the ciphertext; a padding failure is OperationError; the cipher is invoked exactly when key and IV are valid |
| BrowserCrypto.Encrypt | packages/helpers/browser-crypto/src/index.ts:127-154 | an absent key throws "Missing key: required for encryption" with no primitive call; otherwise success iff the key is an AES length and the IV is 16 bytes; the payload is the seal of the message, and the calls are IV draw, then CbcEncrypt, then HmacSign over ciphertext followed by IV |
| EnvelopeProperties.EncryptThenVerify | packages/helpers/browser-crypto/src/index.ts:137-153 | every payload encrypt returns is well-formed hex, its iv field decodes to the IV used, its data field to the ciphertext, its tag is authentic, and verifyHmac accepts it under the same key |
| EnvelopeProperties.EncryptWithIv | packages/helpers/browser-crypto/src/index.ts:136-153 | with a provided IV the result is independent of the random generator, succeeds iff the key is an AES length and the IV is 16 bytes, and its iv field is the hex of that IV |
| EnvelopeProperties.EncryptWithFreshIv | packages/helpers/browser-crypto/src/index.ts:136 | without an IV and with a lawful generator, encrypt succeeds iff a key of an AES length is present, giving a 32-digit iv field and a 64-digit hmac field |
| BrowserCrypto.Decrypt | packages/helpers/browser-crypto/src/index.ts:160-162 | an absent key throws "Missing key: required for decryption", not null, and calls no primitive |
| EnvelopeProperties.DecryptOutcome | packages/helpers/browser-crypto/src/index.ts:156-181 | every decrypt outcome under a present key: hex the model's strict decoder refuses throws; an empty key throws DataError; a tag mismatch returns null after only the MAC call; an authentic payload is MAC-checked first, then decrypted; cipher errors propagate; an unparsable plaintext returns null; otherwise the parsed message |
| EnvelopeProperties.DecryptOnlyAfterVerification | packages/helpers/browser-crypto/src/index.ts:164-171 | for a well-formed payload and a non-empty key (the only case in which decrypt invokes any primitive), if the cipher was invoked at all then the payload was authentic and the first call was the MAC over ciphertext followed by IV |
| EnvelopeProperties.DecryptRoundTrip | packages/helpers/browser-crypto/src/index.ts:127-181 | with lawful primitives and codec, decrypting what encrypt produced from a message with distinct object keys, under the same key, returns the original message after exactly one MAC call and one decryption |
| EnvelopeProperties.TamperedTagRejected | packages/helpers/browser-crypto/src/index.ts:164-167 | replacing the hmac field of an encrypted payload by any valid hex tag that decodes to different bytes makes decrypt return null after only the MAC call over the original ciphertext followed by the original IV, without invoking the cipher |
| EnvelopeProperties.ReencodedTagAccepted | packages/helpers/browser-crypto/src/index.ts:77-84 | an hmac field that decodes to the same tag bytes as the one encrypt produced (a "0x" prefix, other letter case) leaves decrypt's outcome unchanged, because the received tag is decoded and re-encoded before the comparison |
| EnvelopeProperties.WrongKeyRejected | packages/helpers/browser-crypto/src/index.ts:164-167 | under another non-empty key whose MAC of the same bytes differs, decrypt returns null after only that MAC call |
| Hex.ToHex | packages/helpers/browser-crypto/src/index.ts:137 | hex text has two lower-case hex digits per byte and no prefix |
| Hex.FromHexOfToHex | packages/helpers/browser-crypto/src/index.ts:169-170 | decoding the hex of any byte sequence gives those bytes back |
| Hex.ToHexOfFromHex | packages/helpers/browser-crypto/src/index.ts:75-78 | re-encoding decoded hex gives the input without its prefix and in lower case |
| Hex.ToHexInjective | packages/helpers/browser-crypto/src/index.ts:84 | two byte sequences have the same hex text iff they are equal |
| Hex.RemoveHexPrefixOfToHex | packages/helpers/browser-crypto/src/index.ts:84 | removing the "0x" prefix leaves unprefixed hex output unchanged |
| WebCrypto.ImportRaw | packages/helpers/browser-crypto/src/index.ts:41 | raw import keeps bytes, extractability and usages; AES keys import iff 16, 24 or 32 bytes, HMAC-SHA-256 keys iff non-empty; every refusal is DataError |
| WebCrypto.ExportRaw | packages/helpers/browser-crypto/src/index.ts:22-26 | raw export returns the key bytes iff the key is extractable |
| WebCrypto.GenerateAesKey | packages/helpers/browser-crypto/src/index.ts:48-55 | AES key generation succeeds iff the length is 128, 192 or 256, drawing length/8 random bytes into an extractable AES-CBC key; a length outside 0..65535 is TypeError and any other OperationError, both with no draw |
| WebCrypto.CbcEncryptWith | packages/helpers/browser-crypto/src/index.ts:98-105 | encryption runs iff the key is an AES-CBC key with encrypt usage and the IV is 16 bytes, and then it is one CbcEncrypt call |
| WebCrypto.CbcDecryptWith | packages/helpers/browser-crypto/src/index.ts:116-123 | decryption is attempted iff the key is an AES-CBC key with decrypt usage and the IV is 16 bytes, and succeeds iff the inverse cipher accepts the ciphertext; a refusal by the inverse cipher is OperationError |
| WebCrypto.HmacSignWith | packages/helpers/browser-crypto/src/index.ts:63-70 | signing runs iff the key is an HMAC key with sign usage, giving the HMAC of the data under the raw key after one HmacSign call; otherwise InvalidAccessError |

## Left out

- `packages/helpers/qrcode-modal/src/browser/helpers/window.ts`: looking up `window.crypto` is environment glue. The provider is a parameter instead, so the "not defined in Window" error is not modelled.
- The internals of AES-CBC, SHA-256/HMAC and the secure random generator are not modelled. They are platform calls and appear only through the promises in `LawfulProvider`.
- IV freshness and uniqueness are not modelled: they are probabilistic. A generated IV is whatever 16 bytes the generator returns.
- The `Promise`/`async` structure is not modelled: nothing depends on interleaving, so every operation is a pure function.
- Timing, including the non-constant-time `===` comparison of tags, cannot be expressed.
- The real JSON and UTF-8 codecs and the hex helpers come from packages that are not part of this model. JSON and UTF-8 keep only their round-trip promise. Hex is written out: strict decoding that refuses an odd length or a non-hex character with `MalformedHex`. The real `convertHexToArrayBuffer` may differ on malformed input, for instance by stopping at the first bad character instead of throwing; the outcomes stated for malformed hex hold for this decoder only.
- JSON numbers are integers here; floating-point rounding in `JSON.stringify`/`JSON.parse` is not modelled.
- Non-integer lengths passed to `generateKey` (`NaN`, fractions such as 128.5, which `[EnforceRange]` truncates) are not modelled, as there are no floating-point values; absent, zero and every integer are.
- `importKey` passes `length: 256` for AES, but the platform takes the key length from the raw bytes. The model records the bytes' own length on the handle.
- `verify` usage on keys is carried but never exercised: the helpers never call `subtle.verify`.
- HMAC keys are imported with SHA-256 only, the one hash the helpers ask for; the platform's other HMAC hashes are not modelled.
- DecryptRoundTrip: holds for messages whose objects have distinct keys (`ValidJson`). A member list with a repeated key stands for no JavaScript value; `JSON.parse` would keep its last occurrence. Member order is not constrained either: `JSON.parse` lists integer-like keys first in ascending order, so for a message such as `Object([("b", Null), ("1", Null)])` the real round trip returns the members reordered, while the model returns them as given.
- Object members are kept in the order listed. JavaScript enumerates integer-like keys first, so a `Json` object stands for a JavaScript object listed in its own enumeration order.
- WrongKeyRejected: assumes the two keys' MACs of the authenticated bytes differ, instead of promising rejection for every other key, because HMAC unforgeability cannot be stated about an uninterpreted primitive.
- Rejection of a payload whose `data` or `iv` field was altered is stated only conditionally, in DecryptOutcome (a tag that does not match gives `null`), because it too rests on HMAC collision resistance. Rejection of an `hmac` field that decodes to different tag bytes is proved unconditionally (TamperedTagRejected).
- The order-sensitivity regression (verifying over IV followed by ciphertext rejects valid payloads) also needs HMAC collision resistance. The model instead pins the order: `Unsigned` is ciphertext then IV on both sides.
- Golden test vectors (32 zero key bytes, 16 zero IV bytes) need the real cipher and MAC and are not modelled. Determinism with a fixed IV is EncryptWithIv.
- Tamper detection is about the decoded tag. An `hmac` field that re-encodes the same tag bytes (with a `0x` prefix, or in upper case) is accepted, as in the source, which strips the prefix and re-encodes the tag in lower case before comparing.
- Strings holding a lone surrogate are not modelled: a Dafny `char` is a Unicode scalar value, whereas a JavaScript string may hold one and `JSON.stringify` escapes it.

=== FILE: browser_crypto.dfy ===
/**
 The encrypt-then-MAC envelope of the browser crypto helpers: a JSON-RPC message is
 serialised, encrypted with AES-256-CBC under a shared key, and authenticated with
 HMAC-SHA-256 under the same key over ciphertext followed by IV; the three byte strings
 travel as hex in an `EncryptionPayload`. Decryption checks the tag first and only then
 decrypts and parses; a bad tag and an unparsable plaintext both give `null`.
 */
module BrowserCrypto {
  import opened Wrappers
  import opened Hex
  import opened JsonCodec
  import opened WebCrypto

  const AesAlgorithm := "AES-CBC"
  const AesLength := 256

  const EncryptMissingKey := "Missing key: required for encryption"
  const DecryptMissingKey := "Missing key: required for decryption"

  /** The wire form of an encrypted message: ciphertext, IV and tag, each as hex. */
  datatype EncryptionPayload = EncryptionPayload(data: string, iv: string, hmac: string)

  /** The parameters and usages `importKey` asks for. */
  datatype ImportRequest = ImportRequest(params: ImportParams, usages: seq<Usage>)

  // ---------------------------------------------------------------------------
  // What the envelope is, independently of how the code computes it

  /** All three fields are valid hex. */
  predicate WellFormed(payload: EncryptionPayload) {
    FromHex(payload.data).Some? && FromHex(payload.iv).Some? && FromHex(payload.hmac).Some?
  }

  /** The bytes the tag authenticates: ciphertext first, IV second. */
  function Unsigned(payload: EncryptionPayload): Bytes
    requires WellFormed(payload)
  {
    FromHex(payload.data).value + FromHex(payload.iv).value
  }

  /** The received tag is the HMAC, under `key`, of ciphertext followed by IV. */
  predicate Authentic(p: Provider, payload: EncryptionPayload, key: Bytes)
    requires WellFormed(payload)
  {
    FromHex(payload.hmac).value == p.hmacSha256(key, Unsigned(payload))
  }

  /** The ciphertext of a message under a key and IV. */
  function CipherText(p: Provider, c: Codec, m: Json, key: Bytes, iv: Bytes): Bytes {
    p.cbcEncrypt(key, iv, Serialize(c, m))
  }

  /** The envelope of a message: hex ciphertext, hex IV, hex tag over ciphertext then IV. */
  function Seal(p: Provider, c: Codec, m: Json, key: Bytes, iv: Bytes): EncryptionPayload {
    var ct := CipherText(p, c, m, key, iv);
    EncryptionPayload(ToHex(ct), ToHex(iv), ToHex(p.hmacSha256(key, ct + iv)))
  }

  /** The IV `encrypt` uses: the caller's, or 16 bytes from the generator. */
  function IvFor(p: Provider, providedIv: Option<Bytes>): Bytes {
    if providedIv.Some? then providedIv.value else p.random(16)
  }

  /** The primitive calls choosing the IV takes. */
  function IvCalls(providedIv: Option<Bytes>): seq<Call> {
    if providedIv.Some? then [] else [GenerateRandom(16)]
  }

  /** The inverse cipher was invoked. */
  predicate Decrypted(calls: seq<Call>) {
    exists i :: 0 <= i < |calls| && calls[i].CbcDecrypt?
  }

  // ---------------------------------------------------------------------------
  // Key material

  /** The algorithm switch of `importKey`; an absent type means "AES-CBC". */
  function ImportRequestFor(keyType: Option<string>): (q: ImportRequest)
    ensures keyType.None? || keyType == Some(AesAlgorithm) ==>
              q == ImportRequest(AesParams(AesLength), [encrypt, decrypt])
    ensures keyType.Some? && keyType.value != AesAlgorithm ==>
              q == ImportRequest(HmacSha256Params, [sign, verify])
  {
    var kind := if keyType.Some? then keyType.value else AesAlgorithm;
    var params := if kind == AesAlgorithm then AesParams(AesLength) else HmacSha256Params;
    var usages := if kind == AesAlgorithm then [encrypt, decrypt] else [sign, verify];
    ImportRequest(params, usages)
  }

  /** `importKey(buffer, type)`: an extractable handle for the raw key bytes. */
  function ImportKey(buffer: Bytes, keyType: Option<string>): (r: Result<CryptoKey, Error>)
    ensures r.Ok? ==> r.value.raw == buffer && r.value.extractable
    ensures r.Ok? ==> r.value.usages == ImportRequestFor(keyType).usages
  {
    var q := ImportRequestFor(keyType);
    ImportRaw(buffer, q.params, true, q.usages)
  }

  /** `length || 256`: an absent or zero length means 256 bits. */
  function KeyLength(length: Option<int>): (bits: int)
    ensures length.None? || length == Some(0) ==> bits == AesLength
    ensures length.Some? && length.value != 0 ==> bits == length.value
  {
    if length.Some? && length.value != 0 then length.value else AesLength
  }

  /** `generateKey(length)`: fresh random key bytes of the requested bit length. */
  function GenerateKey(p: Provider, length: Option<int>): (r: Traced<Bytes>)
    ensures var bits := KeyLength(length);
            r.result.Ok? <==> bits == 128 || bits == 192 || bits == AesLength
    ensures r.result.Ok? ==> r == Traced(Ok(p.random(KeyLength(length) / 8)), [GenerateRandom(KeyLength(length) / 8)])
    ensures !(0 <= KeyLength(length) < UnsignedShortBound) ==> r == Traced(Err(TypeError), [])
    ensures 0 <= KeyLength(length) < UnsignedShortBound && r.result.Err? ==> r == Traced(Err(OperationError), [])
  {
    var key := GenerateAesKey(p, KeyLength(length));
    match key.result
    case Err(e) => Traced(Err(e), key.calls)
    case Ok(k) =>
      match ExportRaw(k)
      case Err(e) => Traced(Err(e), key.calls)
      case Ok(raw) => Traced(Ok(raw), key.calls)
  }

  // ---------------------------------------------------------------------------
  // MAC

  /** `createHmac(data, key)`: HMAC-SHA-256 of `data` under `key` imported as an HMAC key. */
  function CreateHmac(p: Provider, data: Bytes, key: Bytes): (r: Traced<Bytes>)
    ensures r.result.Ok? <==> |key| > 0
    ensures r.result.Ok? ==> r == Traced(Ok(p.hmacSha256(key, data)), [HmacSign(key, data)])
    ensures r.result.Err? ==> r == Traced(Err(DataError), [])
  {
    match ImportKey(key, Some("HMAC"))
    case Err(e) => Traced(Err(e), [])
    case Ok(cryptoKey) => HmacSignWith(p, cryptoKey, data)
  }

  /**
   `verifyHmac(payload, key)`: decodes the three fields, recomputes the tag over
   ciphertext followed by IV, and compares the two tags as unprefixed hex.
   */
  function VerifyHmac(p: Provider, payload: EncryptionPayload, key: Bytes): (r: Traced<bool>)
  {
    var cipherText := FromHex(payload.data);
    var iv := FromHex(payload.iv);
    var hmac := FromHex(payload.hmac);
    if cipherText.None? || iv.None? || hmac.None? then Traced(Err(MalformedHex), [])
    else
      var hmacHex := ToHex(hmac.value);
      var unsigned := cipherText.value + iv.value;
      var chmac := CreateHmac(p, unsigned, key);
      match chmac.result
      case Err(e) => Traced(Err(e), chmac.calls)
      case Ok(tag) =>
        var chmacHex := ToHex(tag);
        Traced(Ok(RemoveHexPrefix(hmacHex) == RemoveHexPrefix(chmacHex)), chmac.calls)
  }

  // ---------------------------------------------------------------------------
  // Cipher

  /** `aesCbcEncrypt(data, key, iv)`. */
  function AesCbcEncrypt(p: Provider, data: Bytes, key: Bytes, iv: Bytes): (r: Traced<Bytes>)
    ensures r.result.Ok? <==> IsAesKeyLength(|key|) && |iv| == BlockBytes
    ensures r.result.Ok? ==> r == Traced(Ok(p.cbcEncrypt(key, iv, data)), [CbcEncrypt(key, iv, data)])
    ensures !IsAesKeyLength(|key|) ==> r == Traced(Err(DataError), [])
    ensures IsAesKeyLength(|key|) && |iv| != BlockBytes ==> r == Traced(Err(OperationError), [])
  {
    match ImportKey(key, Some(AesAlgorithm))
    case Err(e) => Traced(Err(e), [])
    case Ok(cryptoKey) => CbcEncryptWith(p, cryptoKey, iv, data)
  }

  /** `aesCbcDecrypt(data, key, iv)`. */
  function AesCbcDecrypt(p: Provider, data: Bytes, key: Bytes, iv: Bytes): (r: Traced<Bytes>)
    ensures r.result.Ok? <==> IsAesKeyLength(|key|) && |iv| == BlockBytes && p.cbcDecrypt(key, iv, data).Some?
    ensures r.result.Ok? ==> r.result.value == p.cbcDecrypt(key, iv, data).value
    ensures IsAesKeyLength(|key|) && |iv| == BlockBytes ==> r.calls == [CbcDecrypt(key, iv, data)]
    ensures !IsAesKeyLength(|key|) ==> r == Traced(Err(DataError), [])
    ensures IsAesKeyLength(|key|) && |iv| != BlockBytes ==> r == Traced(Err(OperationError), [])
    ensures IsAesKeyLength(|key|) && |iv| == BlockBytes && p.cbcDecrypt(key, iv, data).None?
            ==> r == Traced(Err(OperationError), [CbcDecrypt(key, iv, data)])
  {
    match ImportKey(key, Some(AesAlgorithm))
    case Err(e) => Traced(Err(e), [])
    case Ok(cryptoKey) => CbcDecryptWith(p, cryptoKey, iv, data)
  }

  // ---------------------------------------------------------------------------
  // The envelope

  /**
   `encrypt(data, key, providedIv)`. An absent key throws before anything runs; an
   absent IV is drawn from the generator as a fresh 128-bit key.
   */
  function Encrypt(p: Provider, c: Codec, data: Json, key: Option<Bytes>, providedIv: Option<Bytes>)
    : (r: Traced<EncryptionPayload>)
    ensures key.None? ==> r == Traced(Err(MissingKey(EncryptMissingKey)), [])
    ensures r.result.Ok? <==> key.Some? && IsAesKeyLength(|key.value|) && |IvFor(p, providedIv)| == BlockBytes
    ensures key.Some? && !IsAesKeyLength(|key.value|) ==> r.result == Err(DataError)
    ensures key.Some? && IsAesKeyLength(|key.value|) && |IvFor(p, providedIv)| != BlockBytes
            ==> r.result == Err(OperationError)
    ensures r.result.Ok? ==> r.result.value == Seal(p, c, data, key.value, IvFor(p, providedIv))
    ensures r.result.Ok? ==>
              var iv := IvFor(p, providedIv);
              r.calls == IvCalls(providedIv)
                         + [CbcEncrypt(key.value, iv, Serialize(c, data)),
                            HmacSign(key.value, CipherText(p, c, data, key.value, iv) + iv)]
  {
    if key.None? then Traced(Err(MissingKey(EncryptMissingKey)), [])
    else
      var ivRun := if providedIv.Some? then Traced(Ok(providedIv.value), []) else GenerateKey(p, Some(128));
      match ivRun.result
      case Err(e) => Traced(Err(e), ivRun.calls)
      case Ok(iv) =>
        var ivHex := ToHex(iv);
        var content := Serialize(c, data);
        var cipherText := AesCbcEncrypt(p, content, key.value, iv);
        match cipherText.result
        case Err(e) => Traced(Err(e), ivRun.calls + cipherText.calls)
        case Ok(ct) =>
          var unsigned := ct + iv;
          var hmac := CreateHmac(p, unsigned, key.value);
          var calls := ivRun.calls + cipherText.calls + hmac.calls;
          match hmac.result
          case Err(e) => Traced(Err(e), calls)
          case Ok(tag) => Traced(Ok(EncryptionPayload(ToHex(ct), ivHex, ToHex(tag))), calls)
  }

  /**
   `decrypt(payload, key)`. An absent key throws; a tag mismatch gives `null` without
   decrypting; after a match the plaintext is decrypted and parsed, and a parse failure
   also gives `null`. Errors of the cipher itself propagate.
   */
  function Decrypt(p: Provider, c: Codec, payload: EncryptionPayload, key: Option<Bytes>): (r: Traced<Json>)
    ensures key.None? ==> r == Traced(Err(MissingKey(DecryptMissingKey)), [])
  {
    if key.None? then Traced(Err(MissingKey(DecryptMissingKey)), [])
    else
      var verified := VerifyHmac(p, payload, key.value);
      match verified.result
      case Err(e) => Traced(Err(e), verified.calls)
      case Ok(ok) =>
        if !ok then Traced(Ok(Null), verified.calls)
        else
          var cipherText := FromHex(payload.data);
          var iv := FromHex(payload.iv);
          if cipherText.None? || iv.None? then Traced(Err(MalformedHex), verified.calls)
          else
            var buffer := AesCbcDecrypt(p, cipherText.value, key.value, iv.value);
            var calls := verified.calls + buffer.calls;
            match buffer.result
            case Err(e) => Traced(Err(e), calls)
            case Ok(plain) =>
              match Deserialize(c, plain)
              case None => Traced(Ok(Null), calls)
              case Some(m) => Traced(Ok(m), calls)
  }
}

=== FILE: envelope_properties.dfy ===
/**
 Properties of the envelope: what verification decides, that decryption runs only
 after the tag matched, what each failure turns into, and the round trip.
 */
module EnvelopeProperties {
  import opened Wrappers
  import opened Hex
  import opened JsonCodec
  import opened WebCrypto
  import opened BrowserCrypto

  /**
   A key imported as "AES-CBC" can encrypt and decrypt but not sign; a key imported
   under any other type can sign but neither encrypt nor decrypt.
   */
  lemma ImportKeySeparatesCapabilities(raw: Bytes, keyType: string, iv: Bytes, data: Bytes, p: Provider)
    ensures keyType == AesAlgorithm ==>
              var r := ImportKey(raw, Some(keyType));
              && (r.Ok? <==> IsAesKeyLength(|raw|))
              && (r.Ok? ==> HmacSignWith(p, r.value, data).result == Err(InvalidAccessError))
              && (r.Ok? && |iv| == BlockBytes ==> CbcEncryptWith(p, r.value, iv, data).result.Ok?)
              && (r.Ok? && |iv| == BlockBytes ==> CbcDecryptWith(p, r.value, iv, data).calls == [CbcDecrypt(raw, iv, data)])
    ensures keyType != AesAlgorithm ==>
              var r := ImportKey(raw, Some(keyType));
              && (r.Ok? <==> |raw| > 0)
              && (r.Ok? ==> HmacSignWith(p, r.value, data).result.Ok?)
              && (r.Ok? ==> CbcEncryptWith(p, r.value, iv, data).result == Err(InvalidAccessError))
              && (r.Ok? ==> CbcDecryptWith(p, r.value, iv, data).result == Err(InvalidAccessError))
  {
  }

  /** With lawful primitives, a generated key has exactly the requested number of bits. */
  lemma GenerateKeyLength(p: Provider, length: Option<int>)
    requires LawfulProvider(p)
    ensures var r := GenerateKey(p, length);
            r.result.Ok? ==> 8 * |r.result.value| == KeyLength(length)
    ensures length.None? || length == Some(0) ==>
              var r := GenerateKey(p, length);
              r.result.Ok? && |r.result.value| == 32
  {
  }

  /**
   A key `generateKey` returns imports as an AES-CBC key, and `encrypt` under it with a
   fresh IV succeeds; its generation failures are the platform's TypeError for a length
   that is no `unsigned short` and OperationError for any other length.
   */
  lemma GeneratedKeyEncrypts(p: Provider, c: Codec, m: Json, length: Option<int>)
    requires LawfulProvider(p)
    ensures var r := GenerateKey(p, length);
            r.result.Ok? ==>
              && ImportKey(r.result.value, None).Ok?
              && ImportKey(r.result.value, None).value.algorithm.AesCbcKey?
              && Encrypt(p, c, m, Some(r.result.value), None).result.Ok?
    ensures var r := GenerateKey(p, length);
            r.result.Err? ==> r.result.error == (if 0 <= KeyLength(length) < UnsignedShortBound then OperationError else TypeError)
  {
  }

  /**
   Verification accepts exactly the payloads whose decoded tag is the HMAC of the
   decoded ciphertext followed by the decoded IV; on well-formed input with a non-empty
   key it returns a verdict rather than throwing, after one MAC computation.
   */
  lemma VerifyHmacExact(p: Provider, payload: EncryptionPayload, key: Bytes)
    ensures !WellFormed(payload) ==> VerifyHmac(p, payload, key) == Traced(Err(MalformedHex), [])
    ensures WellFormed(payload) && |key| == 0 ==> VerifyHmac(p, payload, key) == Traced(Err(DataError), [])
    ensures WellFormed(payload) && |key| > 0 ==>
              VerifyHmac(p, payload, key) == Traced(Ok(Authentic(p, payload, key)), [HmacSign(key, Unsigned(payload))])
  {
    if WellFormed(payload) && |key| > 0 {
      var received := FromHex(payload.hmac).value;
      var computed := p.hmacSha256(key, Unsigned(payload));
      RemoveHexPrefixOfToHex(received);
      RemoveHexPrefixOfToHex(computed);
      ToHexInjective(received, computed);
    }
  }

  /** Every payload `encrypt` produces is well formed, names its IV, and carries an authentic tag. */
  lemma EncryptThenVerify(p: Provider, c: Codec, m: Json, key: Bytes, providedIv: Option<Bytes>, payload: EncryptionPayload)
    requires Encrypt(p, c, m, Some(key), providedIv).result == Ok(payload)
    ensures WellFormed(payload)
    ensures FromHex(payload.iv) == Some(IvFor(p, providedIv))
    ensures FromHex(payload.data) == Some(CipherText(p, c, m, key, IvFor(p, providedIv)))
    ensures Authentic(p, payload, key)
    ensures VerifyHmac(p, payload, key).result == Ok(true)
  {
    var iv := IvFor(p, providedIv);
    var ct := CipherText(p, c, m, key, iv);
    var tag := p.hmacSha256(key, ct + iv);
    FromHexOfToHex(ct);
    FromHexOfToHex(iv);
    FromHexOfToHex(tag);
    VerifyHmacExact(p, payload, key);
  }

  /**
   With lawful primitives `encrypt` succeeds exactly when a key of an AES length is
   given and the caller's IV, if any, is one block long; with a given IV the result
   does not depend on the random generator, and its `iv` field is that IV in hex.
   */
  lemma EncryptWithIv(p: Provider, q: Provider, c: Codec, m: Json, key: Option<Bytes>, iv: Bytes)
    requires p.cbcEncrypt == q.cbcEncrypt && p.hmacSha256 == q.hmacSha256
    ensures Encrypt(p, c, m, key, Some(iv)) == Encrypt(q, c, m, key, Some(iv))
    ensures Encrypt(p, c, m, key, Some(iv)).result.Ok? <==> key.Some? && IsAesKeyLength(|key.value|) && |iv| == BlockBytes
    ensures Encrypt(p, c, m, key, Some(iv)).result.Ok? ==> Encrypt(p, c, m, key, Some(iv)).result.value.iv == ToHex(iv)
    ensures Encrypt(p, c, m, key, Some(iv)).calls == Encrypt(q, c, m, key, Some(iv)).calls
  {
  }

  /** Without an IV, and with a lawful generator, `encrypt` fails only on a missing key or one of the wrong length. */
  lemma EncryptWithFreshIv(p: Provider, c: Codec, m: Json, key: Option<Bytes>)
    requires LawfulProvider(p)
    ensures Encrypt(p, c, m, key, None).result.Ok? <==> key.Some? && IsAesKeyLength(|key.value|)
    ensures Encrypt(p, c, m, key, None).result.Ok? ==>
              var payload := Encrypt(p, c, m, key, None).result.value;
              |payload.iv| == 2 * BlockBytes && |payload.hmac| == 2 * TagBytes
  {
  }

  /**
   Every outcome of `decrypt` under a key: malformed hex and an empty key throw, a tag
   mismatch gives `null` after only the MAC computation, and only an authentic payload
   reaches the cipher, whose errors propagate; a plaintext that does not parse gives `null`.
   */
  lemma DecryptOutcome(p: Provider, c: Codec, payload: EncryptionPayload, key: Bytes)
    ensures !WellFormed(payload) ==> Decrypt(p, c, payload, Some(key)) == Traced(Err(MalformedHex), [])
    ensures WellFormed(payload) && |key| == 0 ==> Decrypt(p, c, payload, Some(key)) == Traced(Err(DataError), [])
    ensures WellFormed(payload) && |key| > 0 && !Authentic(p, payload, key) ==>
              Decrypt(p, c, payload, Some(key)) == Traced(Ok(Null), [HmacSign(key, Unsigned(payload))])
    ensures WellFormed(payload) && |key| > 0 && Authentic(p, payload, key) ==>
              var r := Decrypt(p, c, payload, Some(key));
              var ct := FromHex(payload.data).value;
              var iv := FromHex(payload.iv).value;
              && r.calls[..1] == [HmacSign(key, ct + iv)]
              && (!IsAesKeyLength(|key|) ==> r == Traced(Err(DataError), [HmacSign(key, ct + iv)]))
              && (IsAesKeyLength(|key|) && |iv| != BlockBytes ==>
                    r == Traced(Err(OperationError), [HmacSign(key, ct + iv)]))
              && (IsAesKeyLength(|key|) && |iv| == BlockBytes ==>
                    && r.calls == [HmacSign(key, ct + iv), CbcDecrypt(key, iv, ct)]
                    && r.result == match p.cbcDecrypt(key, iv, ct)
                                   case None => Err(OperationError)
                                   case Some(plain) => Ok(Deserialize(c, plain).GetOr(Null)))
  {
    VerifyHmacExact(p, payload, key);
  }

  /**
   The cipher is invoked only after a MAC computation that matched the received tag.
   Stated for a well-formed payload and a non-empty key: in every other case `decrypt`
   invokes no primitive at all (DecryptOutcome).
   */
  lemma DecryptOnlyAfterVerification(p: Provider, c: Codec, payload: EncryptionPayload, key: Bytes)
    requires WellFormed(payload) && |key| > 0
    ensures var r := Decrypt(p, c, payload, Some(key));
            Decrypted(r.calls) ==> Authentic(p, payload, key) && r.calls[0] == HmacSign(key, Unsigned(payload))
  {
    var r := Decrypt(p, c, payload, Some(key));
    DecryptOutcome(p, c, payload, key);
    if !Authentic(p, payload, key) {
      assert !Decrypted(r.calls);
    }
  }

  /** Decrypting what `encrypt` produced under the same key gives back the message. */
  lemma DecryptRoundTrip(p: Provider, c: Codec, m: Json, key: Bytes, providedIv: Option<Bytes>, payload: EncryptionPayload)
    requires LawfulProvider(p) && LawfulCodec(c) && ValidJson(m)
    requires Encrypt(p, c, m, Some(key), providedIv).result == Ok(payload)
    ensures Decrypt(p, c, payload, Some(key)).result == Ok(m)
    ensures var iv := IvFor(p, providedIv);
            var ct := CipherText(p, c, m, key, iv);
            Decrypt(p, c, payload, Some(key)).calls == [HmacSign(key, ct + iv), CbcDecrypt(key, iv, ct)]
  {
    EncryptThenVerify(p, c, m, key, providedIv, payload);
    DecryptOutcome(p, c, payload, key);
  }

  /**
   Replacing the tag of an encrypted payload by any valid hex tag that decodes to different
   bytes makes `decrypt` return `null` after computing only the MAC of the original
   ciphertext followed by the original IV, never reaching the cipher.
   */
  lemma TamperedTagRejected(p: Provider, c: Codec, m: Json, key: Bytes, providedIv: Option<Bytes>,
                            payload: EncryptionPayload, forged: string)
    requires Encrypt(p, c, m, Some(key), providedIv).result == Ok(payload)
    requires FromHex(forged).Some? && FromHex(forged) != FromHex(payload.hmac)
    ensures var iv := IvFor(p, providedIv);
            Decrypt(p, c, payload.(hmac := forged), Some(key))
            == Traced(Ok(Null), [HmacSign(key, CipherText(p, c, m, key, iv) + iv)])
  {
    EncryptThenVerify(p, c, m, key, providedIv, payload);
    var tampered := payload.(hmac := forged);
    assert WellFormed(tampered);
    assert Unsigned(tampered) == Unsigned(payload);
    DecryptOutcome(p, c, tampered, key);
  }

  /**
   The converse: a tag re-encoded to the same bytes (with a "0x" prefix, or in another
   letter case) leaves the outcome of `decrypt` unchanged.
   */
  lemma ReencodedTagAccepted(p: Provider, c: Codec, m: Json, key: Bytes, providedIv: Option<Bytes>,
                             payload: EncryptionPayload, reencoded: string)
    requires Encrypt(p, c, m, Some(key), providedIv).result == Ok(payload)
    requires FromHex(reencoded) == FromHex(payload.hmac)
    ensures Decrypt(p, c, payload.(hmac := reencoded), Some(key)) == Decrypt(p, c, payload, Some(key))
  {
    EncryptThenVerify(p, c, m, key, providedIv, payload);
    var altered := payload.(hmac := reencoded);
    assert WellFormed(altered);
    assert Unsigned(altered) == Unsigned(payload);
    assert Authentic(p, altered, key);
    DecryptOutcome(p, c, altered, key);
    DecryptOutcome(p, c, payload, key);
  }

  /**
   A payload sealed under one key is rejected with `null`, before any decryption, under
   any other non-empty key whose MAC of the same bytes differs.
   */
  lemma WrongKeyRejected(p: Provider, c: Codec, m: Json, key: Bytes, other: Bytes, providedIv: Option<Bytes>,
                         payload: EncryptionPayload)
    requires Encrypt(p, c, m, Some(key), providedIv).result == Ok(payload)
    requires var iv := IvFor(p, providedIv);
             var ct := CipherText(p, c, m, key, iv);
             |other| > 0 && p.hmacSha256(other, ct + iv) != p.hmacSha256(key, ct + iv)
    ensures var iv := IvFor(p, providedIv);
            var ct := CipherText(p, c, m, key, iv);
            Decrypt(p, c, payload, Some(other)) == Traced(Ok(Null), [HmacSign(other, ct + iv)])
  {
    EncryptThenVerify(p, c, m, key, providedIv, payload);
    DecryptOutcome(p, c, payload, other);
  }
}

=== FILE: hex.dfy ===
/**
 Bytes and their base16 text form (section 8 of RFC 4648), as the envelope uses them:
 every byte written as two lower-case hex digits, most significant nibble first, with
 no "0x" prefix; decoding strips one leading "0x", accepts both letter cases and
 refuses an odd number of digits or a non-hex character.
 */
module Hex {
  import opened Wrappers

  type byte = x: int | 0 <= x < 256
  type Bytes = seq<byte>

  predicate IsLowerHexDigit(ch: char) {
    '0' <= ch <= '9' || 'a' <= ch <= 'f'
  }

  /** The lower-case hex digit of a nibble. */
  function Digit(n: int): (ch: char)
    requires 0 <= n < 16
    ensures IsLowerHexDigit(ch)
  {
    if n < 10 then (48 + n) as char else (87 + n) as char
  }

  /** The nibble a hex digit of either case stands for; None for any other character. */
  function DigitValue(ch: char): (v: Option<int>)
    ensures v.Some? ==> 0 <= v.value < 16
  {
    if '0' <= ch <= '9' then Some(ch as int - 48)
    else if 'a' <= ch <= 'f' then Some(ch as int - 87)
    else if 'A' <= ch <= 'F' then Some(ch as int - 55)
    else None
  }

  /** Folds an upper-case hex letter to lower case; every other character is kept. */
  function LowerChar(ch: char): char {
    if 'A' <= ch <= 'F' then (ch as int + 32) as char else ch
  }

  function Lower(s: string): (t: string)
    ensures |t| == |s|
  {
    seq(|s|, i requires 0 <= i < |s| => LowerChar(s[i]))
  }

  /** Hex text of a byte sequence, without prefix (`convertArrayBufferToHex(buf, true)`). */
  function ToHex(b: Bytes): (s: string)
    ensures |s| == 2 * |b|
    ensures forall i :: 0 <= i < |s| ==> IsLowerHexDigit(s[i])
  {
    if b == [] then "" else [Digit(b[0] / 16), Digit(b[0] % 16)] + ToHex(b[1..])
  }

  /** Drops one leading "0x" (`removeHexPrefix`). */
  function RemoveHexPrefix(s: string): (t: string)
    ensures s == t || s == "0x" + t
  {
    if |s| >= 2 && s[0] == '0' && s[1] == 'x' then s[2..] else s
  }

  /** Decodes pairs of hex digits; None on an odd length or a non-hex character. */
  function DecodeDigits(s: string): (r: Option<Bytes>)
    ensures r.Some? ==> 2 * |r.value| == |s|
    decreases |s|
  {
    if |s| == 0 then Some([])
    else if |s| == 1 then None
    else
      match (DigitValue(s[0]), DigitValue(s[1]), DecodeDigits(s[2..]))
      case (Some(hi), Some(lo), Some(rest)) => Some([hi * 16 + lo] + rest)
      case _ => None
  }

  /** Bytes of a hex string (`convertHexToArrayBuffer`). */
  function FromHex(s: string): Option<Bytes> {
    DecodeDigits(RemoveHexPrefix(s))
  }

  lemma DigitRoundTrip(n: int)
    requires 0 <= n < 16
    ensures DigitValue(Digit(n)) == Some(n)
  {
  }

  lemma {:induction false} DecodeDigitsOfToHex(b: Bytes)
    ensures DecodeDigits(ToHex(b)) == Some(b)
  {
    if b != [] {
      var s := ToHex(b);
      DecodeDigitsOfToHex(b[1..]);
      assert s[2..] == ToHex(b[1..]);
      DigitRoundTrip(b[0] / 16);
      DigitRoundTrip(b[0] % 16);
      assert [b[0]] + b[1..] == b;
    }
  }

  /** Hex written by ToHex never starts with "0x", so removing the prefix leaves it alone. */
  lemma RemoveHexPrefixOfToHex(b: Bytes)
    ensures RemoveHexPrefix(ToHex(b)) == ToHex(b)
  {
    var s := ToHex(b);
    if |s| >= 2 {
      assert IsLowerHexDigit(s[1]);
    }
  }

  /** Decoding undoes encoding. */
  lemma {:induction false} FromHexOfToHex(b: Bytes)
    ensures FromHex(ToHex(b)) == Some(b)
  {
    RemoveHexPrefixOfToHex(b);
    DecodeDigitsOfToHex(b);
  }

  /** Distinct byte sequences have distinct hex text. */
  lemma {:induction false} ToHexInjective(a: Bytes, b: Bytes)
    ensures ToHex(a) == ToHex(b) <==> a == b
  {
    if ToHex(a) == ToHex(b) {
      FromHexOfToHex(a);
      FromHexOfToHex(b);
    }
  }

  lemma {:induction false} ToHexOfDecodeDigits(s: string, b: Bytes)
    requires DecodeDigits(s) == Some(b)
    ensures ToHex(b) == Lower(s)
    decreases |s|
  {
    if |s| > 0 {
      var hi := DigitValue(s[0]).value;
      var lo := DigitValue(s[1]).value;
      var rest := DecodeDigits(s[2..]).value;
      assert b == [hi * 16 + lo] + rest;
      ToHexOfDecodeDigits(s[2..], rest);
      assert b[1..] == rest;
      assert (hi * 16 + lo) / 16 == hi && (hi * 16 + lo) % 16 == lo;
      assert Lower(s) == [LowerChar(s[0]), LowerChar(s[1])] + Lower(s[2..]);
    }
  }

  /** Encoding undoes decoding, up to the prefix and the letter case the decoder accepted. */
  lemma ToHexOfFromHex(s: string, b: Bytes)
    requires FromHex(s) == Some(b)
    ensures ToHex(b) == Lower(RemoveHexPrefix(s))
  {
    ToHexOfDecodeDigits(RemoveHexPrefix(s), b);
  }
}

=== FILE: json.dfy ===
/**
 The messages the envelope carries and the text codecs around them. JSON-RPC requests
 and responses are JSON values; `JSON.stringify`, `JSON.parse` and the UTF-8 converters
 are supplied as a `Codec` whose only promise is the round trip in `LawfulCodec`.
 */
module JsonCodec {
  import opened Wrappers
  import opened Hex

  /** A JSON value; `Null` is also the value JavaScript's `null` stands for. */
  datatype Json =
    | Null
    | Bool(b: bool)
    | Number(n: int)
    | Str(s: string)
    | Array(items: seq<Json>)
    | Object(members: seq<(string, Json)>)

  /** The serialisation helpers the envelope calls. */
  datatype Codec = Codec(
    stringify: Json -> string,
    parse: string -> Option<Json>,
    utf8Encode: string -> Bytes,
    utf8Decode: Bytes -> string)

  /** No two members of an object share a key. */
  predicate DistinctKeys(members: seq<(string, Json)>) {
    forall i, j :: 0 <= i < j < |members| ==> members[i].0 != members[j].0
  }

  /**
   The values a JavaScript message can be: every object, at any depth, has distinct
   keys. A member list with a repeated key stands for no JavaScript object, and
   `JSON.parse` would keep only its last occurrence.
   */
  predicate ValidJson(m: Json)
    decreases m, 1
  {
    match m
    case Array(items) => AllValid(items)
    case Object(members) => DistinctKeys(members) && AllValidMembers(members)
    case _ => true
  }

  /** Every element is valid. */
  predicate AllValid(items: seq<Json>)
    decreases items, 0
  {
    items == [] || (ValidJson(items[0]) && AllValid(items[1..]))
  }

  /** Every member value is valid. */
  predicate AllValidMembers(members: seq<(string, Json)>)
    decreases members, 0
  {
    members == [] ||
      (assert members[0].1 < members[0];
       ValidJson(members[0].1) && AllValidMembers(members[1..]))
  }

  /**
   Parsing recovers every stringified valid value, and UTF-8 decoding recovers every
   stringified text (stringify output has no lone surrogates, so UTF-8 loses nothing).
   */
  ghost predicate LawfulCodec(c: Codec) {
    && (forall m {:trigger c.parse(c.stringify(m))} :: ValidJson(m) ==> c.parse(c.stringify(m)) == Some(m))
    && (forall m :: c.utf8Decode(c.utf8Encode(c.stringify(m))) == c.stringify(m))
  }

  /** The plaintext bytes of a message: its JSON text in UTF-8. */
  function Serialize(c: Codec, m: Json): Bytes {
    c.utf8Encode(c.stringify(m))
  }

  /** The message a plaintext holds, or None when it is not JSON text. */
  function Deserialize(c: Codec, plain: Bytes): Option<Json> {
    c.parse(c.utf8Decode(plain))
  }
}

=== FILE: webcrypto.dfy ===
/**
 The part of the platform's `crypto.subtle` interface the envelope uses. The AES-CBC
 cipher (section 6.2 of NIST SP 800-38A with PKCS#7 padding), HMAC-SHA-256 (RFC 2104
 over FIPS 180-4) and the secure random generator are supplied as a `Provider`, whose
 only promises are those in `LawfulProvider`. What this module does itself is the gating the
 Web Cryptography API puts in front of them: raw-key import checks, the algorithm and
 usage a key handle is bound to, and the AES-CBC IV length. Every primitive actually
 invoked is recorded as a `Call`, so that callers can state what ran and in which order.
 */
module WebCrypto {
  import opened Wrappers
  import opened Hex

  /** What a key handle may be used for (the Web Cryptography API's `KeyUsage` strings). */
  datatype Usage = encrypt | decrypt | sign | verify

  /**
   Algorithm parameters handed to `importKey`: `{name: "AES-CBC", length}` or
   `{name: "HMAC", hash: {name: "SHA-256"}}`, the only hash the helpers ask for.
   */
  datatype ImportParams = AesParams(length: nat) | HmacSha256Params

  /** The algorithm a key handle is bound to. */
  datatype KeyAlgorithm = AesCbcKey(bits: nat) | HmacSha256Key

  /** An opaque key handle (`CryptoKey`). */
  datatype CryptoKey = CryptoKey(raw: Bytes, algorithm: KeyAlgorithm, extractable: bool, usages: seq<Usage>)

  /** The exceptions an operation can throw. */
  datatype Error =
    | MissingKey(message: string)
    | MalformedHex
    | DataError
    | OperationError
    | InvalidAccessError
    | TypeError

  /** One invocation of a primitive. */
  datatype Call =
    | GenerateRandom(bytes: nat)
    | CbcEncrypt(key: Bytes, iv: Bytes, data: Bytes)
    | CbcDecrypt(key: Bytes, iv: Bytes, data: Bytes)
    | HmacSign(key: Bytes, data: Bytes)

  /** A result together with the primitives invoked to reach it, oldest first. */
  datatype Traced<+T> = Traced(result: Result<T, Error>, calls: seq<Call>)

  /** The primitives: cipher, inverse cipher (None on a length or padding failure), MAC, random bytes. */
  datatype Provider = Provider(
    cbcEncrypt: (Bytes, Bytes, Bytes) -> Bytes,
    cbcDecrypt: (Bytes, Bytes, Bytes) -> Option<Bytes>,
    hmacSha256: (Bytes, Bytes) -> Bytes,
    random: nat -> Bytes)

  const BlockBytes := 16
  const TagBytes := 32

  /** One past the largest `unsigned short`, the Web IDL type of `AesKeyGenParams.length`. */
  const UnsignedShortBound := 0x1_0000

  predicate IsAesKeyLength(n: int) {
    n == 16 || n == 24 || n == 32
  }

  /**
   The promises of the primitives: CBC decryption under the same key and IV inverts
   CBC encryption, a tag is the 32 bytes of a SHA-256 output, and the generator gives
   as many bytes as asked for.
   */
  ghost predicate LawfulProvider(p: Provider) {
    && (forall k, iv, data {:trigger p.cbcDecrypt(k, iv, p.cbcEncrypt(k, iv, data))} ::
          IsAesKeyLength(|k|) && |iv| == BlockBytes ==>
          p.cbcDecrypt(k, iv, p.cbcEncrypt(k, iv, data)) == Some(data))
    && (forall k, data :: |p.hmacSha256(k, data)| == TagBytes)
    && (forall n :: |p.random(n)| == n)
  }

  /**
   `subtle.importKey("raw", raw, params, extractable, usages)`: an AES key must be
   128, 192 or 256 bits long, an HMAC key must not be empty.
   */
  function ImportRaw(raw: Bytes, params: ImportParams, extractable: bool, usages: seq<Usage>): (r: Result<CryptoKey, Error>)
    ensures r.Ok? ==> r.value.raw == raw && r.value.extractable == extractable && r.value.usages == usages
    ensures r.Ok? ==> (r.value.algorithm.AesCbcKey? <==> params.AesParams?)
    ensures params.AesParams? ==> (r.Ok? <==> IsAesKeyLength(|raw|))
    ensures params.HmacSha256Params? ==> (r.Ok? <==> |raw| > 0)
    ensures r.Err? ==> r.error == DataError
  {
    match params
    case AesParams(_) =>
      if IsAesKeyLength(|raw|) then Ok(CryptoKey(raw, AesCbcKey(8 * |raw|), extractable, usages))
      else Err(DataError)
    case HmacSha256Params =>
      if |raw| == 0 then Err(DataError)
      else Ok(CryptoKey(raw, HmacSha256Key, extractable, usages))
  }

  /** `subtle.exportKey("raw", key)`, which is all the helpers' `exportKey(cryptoKey)` does. */
  function ExportRaw(key: CryptoKey): (r: Result<Bytes, Error>)
    ensures r.Ok? <==> key.extractable
    ensures r.Ok? ==> r.value == key.raw
  {
    if key.extractable then Ok(key.raw) else Err(InvalidAccessError)
  }

  /**
   `subtle.generateKey({name: "AES-CBC", length}, true, ["encrypt", "decrypt"])`. A length
   outside `unsigned short` fails the `[EnforceRange]` conversion with a TypeError; an
   in-range length other than 128, 192 or 256 is an OperationError.
   */
  function GenerateAesKey(p: Provider, length: int): (r: Traced<CryptoKey>)
    ensures r.result.Ok? <==> length == 128 || length == 192 || length == 256
    ensures r.result.Ok? ==> r.calls == [GenerateRandom(length / 8)] && r.result.value.raw == p.random(length / 8)
    ensures r.result.Ok? ==> r.result.value.algorithm == AesCbcKey(length) && r.result.value.extractable
    ensures !(0 <= length < UnsignedShortBound) ==> r == Traced(Err(TypeError), [])
    ensures 0 <= length < UnsignedShortBound && r.result.Err? ==> r == Traced(Err(OperationError), [])
  {
    if !(0 <= length < UnsignedShortBound) then
      Traced(Err(TypeError), [])
    else if length == 128 || length == 192 || length == 256 then
      var n := length / 8;
      Traced(Ok(CryptoKey(p.random(n), AesCbcKey(length), true, [encrypt, decrypt])), [GenerateRandom(n)])
    else
      Traced(Err(OperationError), [])
  }

  /** The key is an AES-CBC key bound to `usage` and the IV is one block long. */
  predicate CbcAllowed(key: CryptoKey, usage: Usage, iv: Bytes) {
    key.algorithm.AesCbcKey? && usage in key.usages && |iv| == BlockBytes
  }

  /** `subtle.encrypt({name: "AES-CBC", iv}, key, data)`. */
  function CbcEncryptWith(p: Provider, key: CryptoKey, iv: Bytes, data: Bytes): (r: Traced<Bytes>)
    ensures r.result.Ok? <==> CbcAllowed(key, encrypt, iv)
    ensures r.result.Ok? ==> r == Traced(Ok(p.cbcEncrypt(key.raw, iv, data)), [CbcEncrypt(key.raw, iv, data)])
    ensures r.result.Err? ==> r.calls == []
  {
    if !key.algorithm.AesCbcKey? || encrypt !in key.usages then Traced(Err(InvalidAccessError), [])
    else if |iv| != BlockBytes then Traced(Err(OperationError), [])
    else Traced(Ok(p.cbcEncrypt(key.raw, iv, data)), [CbcEncrypt(key.raw, iv, data)])
  }

  /** `subtle.decrypt({name: "AES-CBC", iv}, key, data)`; a length or padding failure is an OperationError. */
  function CbcDecryptWith(p: Provider, key: CryptoKey, iv: Bytes, data: Bytes): (r: Traced<Bytes>)
    ensures r.result.Ok? <==> CbcAllowed(key, decrypt, iv) && p.cbcDecrypt(key.raw, iv, data).Some?
    ensures r.result.Ok? ==> r.result.value == p.cbcDecrypt(key.raw, iv, data).value
    ensures CbcAllowed(key, decrypt, iv) ==> r.calls == [CbcDecrypt(key.raw, iv, data)]
    ensures !CbcAllowed(key, decrypt, iv) ==> r.calls == []
    ensures CbcAllowed(key, decrypt, iv) && p.cbcDecrypt(key.raw, iv, data).None? ==> r.result == Err(OperationError)
  {
    if !key.algorithm.AesCbcKey? || decrypt !in key.usages then Traced(Err(InvalidAccessError), [])
    else if |iv| != BlockBytes then Traced(Err(OperationError), [])
    else
      var calls := [CbcDecrypt(key.raw, iv, data)];
      match p.cbcDecrypt(key.raw, iv, data)
      case None => Traced(Err(OperationError), calls)
      case Some(plain) => Traced(Ok(plain), calls)
  }

  /** `subtle.sign({name: "HMAC"}, key, data)`. */
  function HmacSignWith(p: Provider, key: CryptoKey, data: Bytes): (r: Traced<Bytes>)
    ensures r.result.Ok? <==> key.algorithm.HmacSha256Key? && sign in key.usages
    ensures r.result.Ok? ==> r == Traced(Ok(p.hmacSha256(key.raw, data)), [HmacSign(key.raw, data)])
    ensures r.result.Err? ==> r == Traced(Err(InvalidAccessError), [])
  {
    if !key.algorithm.HmacSha256Key? || sign !in key.usages then Traced(Err(InvalidAccessError), [])
    else Traced(Ok(p.hmacSha256(key.raw, data)), [HmacSign(key.raw, data)])
  }
}

=== FILE: wrappers.dfy ===
/** Failure-carrying datatypes shared by the envelope model. */
module Wrappers {

  /** A value that may be absent: an optional argument, a failed decode or parse. */
  datatype Option<+T> = None | Some(value: T) {

    /** The value, or `default` when there is none. */
    function GetOr(default: T): T {
      match this
      case Some(v) => v
      case None => default
    }
  }

  /** The outcome of an operation that either returns a value or throws an error. */
  datatype Result<+T, +E> = Ok(value: T) | Err(error: E)
}
